=== FILE: README.md ===
# rules_elisp: file layer and action manifest, modelled in Dafny

This project models two small parts of rules_elisp.

- **The C++ file layer** used by the Emacs Lisp launchers. Three pure
  path-string helpers (`FileName`, `Parent`, `RemoveSlash`) are modelled. So
  are the behaviours that elisp/file_test.cc fixes for code outside this
  model:
  - the syntactic `JoinPath`;
  - `TempName`, which expands a `*` placeholder into a random run;
  - the `File` handle: `Open`, `Write`, `Close`, `path()`, move construction,
    move assignment and `std::swap`;
  - the `TempFile` handle, which removes its file when closed.

  The filesystem is an abstract map from path names to contents, plus the
  set of files sealed against growth. Handles are immutable records, and
  every operation returns the new handle and the new filesystem.
- **The action manifest** of elisp/manifest_test.py:
  - `manifest.add` in `wrap` mode extends a command line with
    `--manifest=<file>` and `--`;
  - `manifest.write` produces the JSON object with `root`, `loadPath`,
    `inputFiles`, `outputFiles` and `tags`.

  The JSON object is modelled as a map from key to value, together with a
  decoder that reads the record back.

Modules, one per file:

| file | module | contents |
|---|---|---|
| errors.dfy | `Errors` | status codes, `Result`, `Option` |
| paths.dfy | `Paths` | `FileName`, `Parent`, `RemoveSlash`, `JoinPath`, and a step-wise reference join |
| temp_name.dfy | `TempNames` | placeholder splitting and `TempName` |
| file.dfy | `Files` | the filesystem, file modes, and the `File` handle |
| temp_file.dfy | `TempFiles` | the `TempFile` handle and its retrying `Create` |
| file_test.dfy | `FileTests` | the `File` and `TempFile` test scenarios, stated for every filesystem and every directory or random draw; the `JoinPath` and `TempName` tests are proved in `Paths` and `TempNames` |
| manifest.dfy | `Manifests` | `manifest.add` and `manifest.write` |

elisp/file.h and elisp/file.cc are not part of this model. The behaviour of
`JoinPath`, `TempName`, `File` and `TempFile` is therefore the simplest
behaviour that meets every assertion of elisp/file_test.cc. The choices made
are:

- `JoinPath` drops ONE trailing slash from every piece but the last and ONE
  leading slash from every piece but the first, then puts one slash between
  neighbours.
  - The tests Relative, Absolute, TwoPieces, Root and FinalSlash all follow.
  - With this rule, the test's check `Parent(path) == RemoveSlash(dir)` holds
    for every directory, because `RemoveSlash` also removes only one slash.
  - A reading where an absolute later piece restarts the path would give
    `"/bar/"` for TwoPieces, but the test expects `"/foo/bar/"`.
  - A middle piece that is `""` or `"/"` loses everything to trimming, so
    its two boundaries meet: `JoinPath(["a", "", "b"])` is `"a//b"`, while
    the step-wise fold gives `"a/b"`. That is why `JoinPathSingleSeparators`
    and `JoinPathStepwiseAgrees` ask every middle piece to keep a name.
- `TempName`:
  - the placeholder is the first maximal run of `*`;
  - a pattern without `*` is an invalid argument;
  - the random run is a parameter, and it is non-empty and alphanumeric.
- `TempFile::Create` tries one name per supplied draw.
  - A name collision (`AlreadyExists`) moves on to the next draw.
  - Any other failure is reported at once.
  - Running out of draws is `ResourceExhausted`.
- A failed write puts the handle in an error state. Every later write on
  that handle fails without effect, and `Close` still succeeds, as the test
  PartialWrite expects.
- Writes go straight through to the filesystem. `TempFile, Write` reads the
  file before closing it, which requires this. As a result, `File::Close`
  always succeeds.
- A file sealed against growth (the test's memfd with `F_SEAL_GROW`) takes
  only the bytes that fit. A write that does not fit completely reports an
  I/O error.

## Model

| member | source | states |
|---|---|---|
| Paths.FileName | elisp/file_test.cc:54-57 | the result holds no slash and is a suffix of the name; a name without a slash is returned whole |
| Paths.Parent | elisp/file_test.cc:59-62 | empty for a name without a slash; otherwise parent, one slash and `FileName` rebuild the name |
| Paths.SplitJoinedName | elisp/file_test.cc:54-62 | splitting undoes joining: `Parent` and `FileName` of `dir + "/" + base` give back `dir` and a slash-free `base` |
| Paths.RemoveSlash | elisp/file_test.cc:64-68 | removes exactly one trailing slash when there is one, and otherwise returns the input unchanged (so the empty string maps to itself) |
| Paths.JoinPath | elisp/file_test.cc:210-229 | no pieces join to the empty path and a single piece is returned unchanged; the two- and three-piece shapes, the kept leading and trailing slash and the single separators are the lemmas below |
| Paths.JoinPathTwo | elisp/file_test.cc:219-229 | two pieces join as the first without one trailing slash, one slash, and the second without one leading slash |
| Paths.JoinPathThree | elisp/file_test.cc:210-217 | three pieces join with the middle piece losing one slash at each end |
| Paths.JoinPathThreePieces | elisp/file_test.cc:210-217 | `JoinPath("foo/", "/bar/", "baz/qux/")` is `"foo/bar/baz/qux/"` and `JoinPath("/foo/", "/bar/", "baz/qux/")` is `"/foo/bar/baz/qux/"` |
| Paths.JoinPathTwoPieces | elisp/file_test.cc:219-229 | `"/foo/bar/"`, `"/file"` and `"dir/"` for the TwoPieces, Root and FinalSlash inputs |
| Paths.JoinPathKeepsLeadingSlash | elisp/file_test.cc:214-217 | an absolute first piece gives an absolute path, for any number of pieces |
| Paths.JoinPathKeepsTrailingSlash | elisp/file_test.cc:227-229 | a trailing slash on the last piece survives the join, for any number of pieces |
| Paths.JoinPathSingleSeparators | elisp/file_test.cc:210-221 | exactly one slash at each boundary: when no piece has a double slash and every middle piece keeps a name, the joined path has no double slash |
| Paths.JoinPathEmptyMiddle | elisp/file_test.cc:210-212 | where the per-piece rule and the step-wise fold part: an empty middle piece gives `"a//b"` under the first and `"a/b"` under the second |
| Paths.JoinPathAppend | elisp/file_test.cc:210-221 | appending a piece to a join strips one slash on each side of the new boundary |
| Paths.JoinPathStepwiseAgrees | elisp/file_test.cc:210-229 | the per-piece join equals the independent step-wise fold whenever every middle piece keeps a name |
| TempNames.SplitPattern | elisp/file_test.cc:231-240 | a split exists exactly when the pattern has a `*`; the prefix has no `*`, the gap between prefix and suffix is all `*`, and the suffix does not start with one |
| TempNames.TempName | elisp/file_test.cc:231-240 | succeeds exactly when the pattern holds a placeholder; otherwise the error is an invalid argument |
| TempNames.TempNameIsJoin | elisp/file_test.cc:231-236 | the name is the directory without one trailing slash, a slash, the prefix without one leading slash, the run and the suffix |
| TempNames.TempNameShape | elisp/file_test.cc:231-238 | the name starts with `JoinPath(dir, prefix)` and ends with the suffix |
| TempNames.TempNameDistinct | elisp/file_test.cc:233-239 | different random runs give different names |
| TempNames.TempNameInDirectory | elisp/file_test.cc:173-175 | for a pattern without slashes, `Parent` of the name is the directory without one trailing slash, and `FileName` is the expanded pattern |
| TempNames.TempNameInRoot | elisp/file_test.cc:233-234 | in `"/"`, `"temp-*.json"` expands to `"/temp-"`, the run and `".json"` |
| TempNames.TempNameCreate | elisp/file_test.cc:231-240 | both names start with `"/temp-"` and end with `".json"`, and two different runs give two different names |
| Files.Union | elisp/file_test.cc:96-97 | the or-operator on two modes holds every option of either mode and nothing more: it is the least mode that includes both |
| Files.Open | elisp/file_test.cc:96-98 | succeeds exactly for a readable or writable mode on a non-empty path that is present, or absent and created; exclusive creation never opens an existing file; an absent path is created empty and unsealed, while the sealed set is otherwise unchanged; other files are untouched; each failure is classified |
| Files.Accepted | elisp/file_test.cc:131-132 | a sealed file takes only the characters that fit in its size; any other file takes them all; a short write takes every character that fits, so it stops exactly at the file's end (or takes nothing when the position is already past it) |
| Files.Write | elisp/file_test.cc:131-133 | succeeds exactly when the handle is writable, not in the error state, and the data fits; the part that fits is stored at the position, which advances by exactly the number of characters the file accepts, and the new contents are fixed completely (kept prefix, NUL gap, written part, kept rest); a sealed file keeps its size; other files are untouched; failure is an I/O error that leaves the handle unable to write |
| Files.WrittenAtUnique | elisp/file_test.cc:131-138 | the description of a write's effect determines the new file contents uniquely |
| Files.FailureSticks | elisp/file_test.cc:131-133 | after a failed write, every later write on the handle fails and changes nothing |
| Files.Close | elisp/file_test.cc:133 | closing reports no new error even after a failed write, leaves the handle empty and the filesystem as it was |
| Files.MoveOut | elisp/file_test.cc:154 | the moved-from handle is empty with an empty path, and the new owner is the source handle, with its path, mode, position and error state |
| Files.MoveAssign | elisp/file_test.cc:162 | the destination becomes the source handle, the source is left empty, and no file changes |
| Files.Swap | elisp/file_test.cc:187-190 | `std::swap` done through three moves exchanges the handles and closes nothing |
| Files.WriteAppends | elisp/file_test.cc:153-158 | a handle at the end of an unsealed file appends its data and advances to the new end |
| Files.CreateWriteCloseRoundTrip | elisp/file_test.cc:96-104 | exclusive creation, one write and close leave exactly the written data in the file |
| FileTests.WriteRead | elisp/file_test.cc:92-112 | the open, write and close all succeed; the file holds `"hello world"`; reopening for reading gives the same path and closes cleanly |
| FileTests.PartialWrite | elisp/file_test.cc:116-139 | on a one-character sealed file, `"h"` is written, `"i"` fails, close succeeds, and the file holds `"h"` |
| FileTests.Move | elisp/file_test.cc:142-165 | `"h"` written before the move and `"i"` after it give `"hi"`; a reopened file moved into the closed owner closes cleanly |
| FileTests.AssignRead | elisp/file_test.cc:182-191 | after two moves and a swap, `a` owns the file again and closes cleanly |
| FileTests.FooPattern | elisp/file_test.cc:169 | `"foo-*.tmp"` splits into `"foo-"` and `".tmp"` |
| FileTests.FooExpanded | elisp/file_test.cc:174-175 | every expansion of `"foo-*.tmp"` starts with `"foo-"` and ends with `".tmp"` |
| FileTests.FooTempName | elisp/file_test.cc:173-175 | every name from `"foo-*.tmp"` sits in the directory and passes the file-name checks |
| FileTests.CreatedFooName | elisp/file_test.cc:169-176 | a created temporary file sits in the directory, passes the file-name checks and exists |
| FileTests.TempNameNonEmptyPath | elisp/file_test.cc:172 | the path of a created temporary file is not empty |
| FileTests.TempFileCreate | elisp/file_test.cc:167-180 | the path checks hold, close succeeds, the path becomes empty and the file is gone |
| FileTests.TempFileWrite | elisp/file_test.cc:193-208 | as TempFileCreate, and `"hello world\n"` is in the file before close removes it |
| TempFiles.CreateFrom | elisp/file_test.cc:169-170 | succeeds exactly when the pattern has a placeholder and some remaining draw names a free path; a success creates the file named by the first such draw, exclusively and empty, with every earlier name taken; a collision is never reported; exhaustion means every remaining name was taken; invalid argument exactly for a pattern without placeholder |
| TempFiles.Create | elisp/file_test.cc:169-176 | as CreateFrom from the first draw: success exactly when some draw names a free path; the new file is pending deletion, opened read-write at position 0, named by the first free draw, was absent before and now exists empty; the failures are invalid argument or exhaustion, as CreateFrom describes them |
| TempFiles.TempNameNonEmpty | elisp/file_test.cc:172 | a generated name is never empty |
| TempFiles.CreateUsesFreeName | elisp/file_test.cc:169-170 | when the first draw names a free path, creation succeeds with that name |
| TempFiles.CreateInDirectory | elisp/file_test.cc:173-176 | the created file sits in the directory, its name is the pattern expanded with one draw, and it exists empty |
| TempFiles.Write | elisp/file_test.cc:203-204 | keeps the path and the deletion duty; succeeds exactly when the underlying handle can write and the data fits; a handle that cannot write (empty, or already in the error state) fails with an I/O error and changes neither itself nor the filesystem; a successful write leaves the handle exactly as before but with its position advanced past the data, and any write advances it by the characters the file accepts; the file's new contents are fixed as for File::Write; a failure is an I/O error that leaves the handle unable to write; other files are untouched |
| TempFiles.WriteThenClose | elisp/file_test.cc:203-207 | data written at the end of a temporary file is in it before close, and close then succeeds, empties the path and removes the file |
| TempFiles.Close | elisp/file_test.cc:177-179 | the path becomes empty, no deletion is owed any more, the file is removed, other files keep their contents, the file loses its seal while every other seal stays, and success means the file was still present |
| TempFiles.MoveOut | elisp/file_test.cc:142-154 | following the File move tests: the moved-from temporary file is empty and owes no deletion, and the new owner is the source handle, deletion duty included |
| TempFiles.MoveAssign | elisp/file_test.cc:159-162 | following the File move-assignment test: the destination's own file is removed first, then the destination becomes the source handle and the source is left empty; no other file disappears or appears, other files keep their contents, and only the removed file's seal is dropped |
| TempFiles.Swap | elisp/file_test.cc:187-189 | swapping temporary files through moves exchanges them, deletion duties included, and removes no file |
| TempFiles.RemovedOnceAcrossMove | elisp/file_test.cc:177-179 | across a move, closing the moved-from handle keeps the file, closing the owner removes it, and closing again does nothing |
| Manifests.Add | elisp/manifest_test.py:28-36 | the arguments stay as a prefix, followed by exactly two more: `--manifest=` and the file name, then `--` |
| Manifests.ManifestName | elisp/manifest_test.py:35 | recognises exactly the arguments that start with `--manifest=`, and gives back the file name after the flag |
| Manifests.AddNamesManifest | elisp/manifest_test.py:31-35 | the flag `Add` appends names the manifest file it was given |
| Manifests.AddExample | elisp/manifest_test.py:30-36 | `["--foo"]` grows to three arguments: `--foo`, a `--manifest=` flag, and `--` |
| Manifests.Build | elisp/manifest_test.py:53-57 | root is `RUNFILES_ROOT`; loadPath is the load directories; inputFiles is the inputs, then the load files, then the data files; outputFiles is the outputs; tags is the rule tags; each list keeps its order |
| Manifests.Encode | elisp/manifest_test.py:52-58 | the object has exactly the five keys |
| Manifests.Decode | elisp/manifest_test.py:50-51 | a decoded record requires all five keys, and all five of the object's values are the ones the record encodes to |
| Manifests.DecodeEncode | elisp/manifest_test.py:50-58 | decoding the encoded record gives the record back |
| Manifests.Write | elisp/manifest_test.py:46-58 | the object has exactly the five keys, its root is `RUNFILES_ROOT`, and it decodes to the manifest record |
| Manifests.WriteExample | elisp/manifest_test.py:40-58 | the object written for the test's options, inputs and outputs |

## Left out

- elisp/file.h and elisp/file.cc are not part of this model. `JoinPath`,
  `TempName`, `File` and `TempFile` are modelled from the assertions of
  elisp/file_test.cc, with the choices listed above.
- Operating-system detail is left out: file descriptors, `errno` values,
  buffering inside the handle, `memfd_create`, and `/dev/fd` paths. The
  filesystem is a map, and a sealed file stands in for `F_SEAL_GROW`.
- `ReadFile` (an `ifstream` read) is not modelled as an operation. The tests'
  reads are the map lookup `fs.files[path]`.
- `FileExists` is membership of the path in the map.
- The quality of `absl::BitGen` randomness is left out. Each random run is a
  parameter. Two successive draws are modelled as two different runs.
- TempNames.TempName: the source's `TempName` returns a plain string and
  the tests only call it with a pattern that holds `*`. The invalid-argument
  result for a pattern without `*` is an addition of this model; the
  behaviour of the source in that case is not visible.
- TempFiles.MoveOut, TempFiles.MoveAssign, TempFiles.Swap:
  elisp/file_test.cc moves only `File` handles. The `TempFile` moves are
  inferred from those tests: the deletion duty travels with the handle.
- TempFiles.Close, TempFiles.MoveAssign: ask for a valid handle (for
  MoveAssign, a valid destination), one
  whose open file has a non-empty name. Every handle Create builds is valid,
  so this excludes only values the source cannot produce.
- TempFiles.Create: the number of attempts is the number of draws supplied.
  The source's own retry bound is not visible.
- Destructor-driven cleanup and thread safety are left out. Only an explicit
  `Close` is modelled, and a moved-from handle is the explicit `Empty` state.
- Files.Open: permission errors are not modelled. Directories, and whether a
  parent directory exists, are not modelled either: every path is a flat name
  in the map.
- Files.Write: a write through a handle whose file was removed from the
  namespace succeeds but changes nothing visible. The model does not track
  unlinked inodes.
- Self-move assignment is not modelled, since a handle is a value and not an
  object with an address.
- Manifests.Add: only the `wrap` mode of the test is modelled. The creation of
  the temporary manifest file, and the writes to it, are I/O and are left out.
  The manifest file name is a parameter.
- Manifests.Write: the JSON text encoding is left out. The object is modelled
  as a map from key to value, and `pathlib.Path` arguments are modelled as
  their strings, without normalisation.

=== FILE: errors.dfy ===
/** Status-or-value results of the file layer: an operation either yields a
    value or reports one failure kind, and never throws for expected
    failures such as a missing file or a name collision. */
module Errors {

  /** The failure kinds the file layer reports. */
  datatype Error =
    | NotFound           // no such file, or an empty path
    | AlreadyExists      // exclusive creation of a path that is present
    | InvalidArgument    // a mode with neither read nor write, a pattern with no placeholder
    | IOError            // a write on a bad descriptor, or a write that does not fit
    | ResourceExhausted  // every temporary name tried was taken

  /** The outcome of an operation that produces no value. */
  datatype Status = Ok | Failed(error: Error)

  /** The outcome of an operation that produces a value on success. */
  datatype Result<+T> = Success(value: T) | Failure(error: Error) {

    predicate IsFailure() {
      Failure?
    }

    function PropagateFailure<U>(): Result<U>
      requires Failure?
    {
      Failure(error)
    }

    function Extract(): T
      requires Success?
    {
      value
    }
  }

  datatype Option<+T> = None | Some(value: T)
}

=== FILE: file.dfy ===
/** The file handle: an owning handle on one open file of an abstract
    filesystem, with Open, Write, Close, path() and move. Writes go straight
    through to the filesystem, so their effect is visible before Close. */
module Files {
  import opened Errors

  /** The filesystem namespace: the contents of every regular file, and the
      files sealed against growth (a memfd with F_SEAL_GROW). */
  datatype FileSystem = FileSystem(files: map<string, seq<char>>, sealed: set<string>)

  /** FileMode: a set of open options, combined with `|` in the source. */
  datatype FileMode = FileMode(read: bool, write: bool, create: bool, exclusive: bool)

  const ModeRead := FileMode(true, false, false, false)
  const ModeWrite := FileMode(false, true, false, false)
  const ModeReadWrite := FileMode(true, true, false, false)
  const ModeCreate := FileMode(false, false, true, false)
  const ModeExclusive := FileMode(false, false, false, true)

  /** Every option `m` asks for is also set in `n`. */
  predicate Includes(n: FileMode, m: FileMode) {
    && (m.read ==> n.read) && (m.write ==> n.write)
    && (m.create ==> n.create) && (m.exclusive ==> n.exclusive)
  }

  /** `a | b`: every option of either mode, and nothing more — the least
      mode that includes both. */
  function Union(a: FileMode, b: FileMode): (r: FileMode)
    ensures Includes(r, a) && Includes(r, b)
    ensures forall m :: Includes(m, a) && Includes(m, b) ==> Includes(m, r)
  {
    FileMode(a.read || b.read, a.write || b.write, a.create || b.create, a.exclusive || b.exclusive)
  }

  /** A file handle. `Handle` owns an open descriptor on `name`, positioned
      at `offset`; `failed` records that a write has reported an error, after
      which the handle does not heal. `Empty` is what Close and a move leave
      behind. */
  datatype File = Handle(name: string, mode: FileMode, offset: nat, failed: bool) | Empty {

    /** File::path(): the name the handle was opened with; empty once the
        handle is closed or moved from. */
    function Path(): string {
      if Handle? then name else []
    }

    /** Open for writing and not in the error state. */
    predicate CanWrite() {
      Handle? && mode.write && !failed
    }
  }

  /** The status of an operation, with the handle and filesystem after it. */
  datatype Outcome = Outcome(status: Status, file: File, fs: FileSystem)

  /** The state after a move assignment `dest = std::move(source)`. */
  datatype Moved = Moved(dest: File, source: File, fs: FileSystem)

  function Max(a: int, b: int): int {
    if a < b then b else a
  }

  function Min(a: int, b: int): int {
    if a < b then a else b
  }

  function Zeros(n: nat): (r: seq<char>)
    ensures |r| == n
    ensures forall i :: 0 <= i < n ==> r[i] == '\0'
  {
    seq(n, _ => '\0')
  }

  /** `after` is `before` with `written` stored at position `offset`: the
      characters before the position are kept, a gap past the old end reads
      as NUL characters, the written characters follow, and whatever lay
      beyond them is kept. Writing nothing changes nothing. */
  predicate WrittenAt(before: seq<char>, after: seq<char>, offset: nat, written: seq<char>) {
    && |after| == (if written == [] then |before| else Max(|before|, offset + |written|))
    && after[..Min(offset, |before|)] == before[..Min(offset, |before|)]
    && (written != [] ==> after[offset..offset + |written|] == written)
    && (offset + |written| <= |before| ==> after[offset + |written|..] == before[offset + |written|..])
    && (written != [] ==> forall i :: |before| <= i < offset ==> after[i] == '\0')
  }

  /** WrittenAt leaves no freedom: it determines the new contents. */
  lemma WrittenAtUnique(before: seq<char>, a1: seq<char>, a2: seq<char>, offset: nat, written: seq<char>)
    requires WrittenAt(before, a1, offset, written) && WrittenAt(before, a2, offset, written)
    ensures a1 == a2
  {
    var m := Min(offset, |before|);
    forall i | 0 <= i < |a1|
      ensures a1[i] == a2[i]
    {
      if i < m {
        assert a1[i] == a1[..m][i] && a2[i] == a2[..m][i];
      } else if written != [] && offset <= i < offset + |written| {
        assert a1[i] == a1[offset..offset + |written|][i - offset];
        assert a2[i] == a2[offset..offset + |written|][i - offset];
      } else if written != [] && i < offset {
      } else {
        var e := offset + |written|;
        assert e <= |before|;
        assert a1[i] == a1[e..][i - e] && a2[i] == a2[e..][i - e];
      }
    }
  }

  /** `content` with `data` written at position `offset`. Writing past the
      end leaves a gap that reads as NUL characters; an empty write changes
      nothing. */
  function Splice(content: seq<char>, offset: nat, data: seq<char>): (r: seq<char>)
    ensures WrittenAt(content, r, offset, data)
  {
    if |data| == 0 then content
    else if offset <= |content| then
      content[..offset] + data + (if offset + |data| < |content| then content[offset + |data|..] else [])
    else
      content + Zeros(offset - |content|) + data
  }

  /** Every file other than `path` keeps its contents, no file appears or
      disappears, and the seals stay as they were. */
  predicate OthersUnchanged(fs: FileSystem, fs': FileSystem, path: string) {
    && fs'.files.Keys == fs.files.Keys
    && fs'.sealed == fs.sealed
    && forall p :: p in fs.files && p != path ==> fs'.files[p] == fs.files[p]
  }

  /** File::Open(path, mode). Creation with `exclusive` is a single atomic
      step: an existing file is never opened, let alone overwritten. */
  function Open(fs: FileSystem, path: string, mode: FileMode): (r: Result<(File, FileSystem)>)
    ensures r.Success? <==>
      && (mode.read || mode.write)
      && path != []
      && (path in fs.files ==> !(mode.create && mode.exclusive))
      && (path !in fs.files ==> mode.create)
    ensures r.Failure? ==>
      if !(mode.read || mode.write) then r.error == InvalidArgument
      else if path != [] && path in fs.files then r.error == AlreadyExists
      else r.error == NotFound
    ensures r.Success? ==>
      var (f, fs') := r.value;
      && f.Handle? && f.Path() == path && f.mode == mode && f.offset == 0 && !f.failed
      && fs'.files.Keys == fs.files.Keys + {path}
      && (forall p :: p in fs.files ==> fs'.files[p] == fs.files[p])
      && (path !in fs.files ==> fs'.files[path] == [] && path !in fs'.sealed)
      && fs'.sealed == (if path in fs.files then fs.sealed else fs.sealed - {path})
  {
    if !(mode.read || mode.write) then Failure(InvalidArgument)
    else if path == [] then Failure(NotFound)
    else if path in fs.files then
      if mode.create && mode.exclusive then Failure(AlreadyExists)
      else Success((Handle(path, mode, 0, false), fs))
    else if mode.create then
      Success((Handle(path, mode, 0, false), FileSystem(fs.files[path := []], fs.sealed - {path})))
    else Failure(NotFound)
  }

  /** How many of `count` characters written at `offset` the file takes:
      all of them, unless it is sealed and they do not fit in its size. */
  function Accepted(fs: FileSystem, name: string, offset: nat, count: nat): (n: nat)
    requires name in fs.files
    ensures n <= count
    ensures n == count <==> (count == 0 || name !in fs.sealed || offset + count <= |fs.files[name]|)
    ensures name in fs.sealed && n > 0 ==> offset + n <= |fs.files[name]|
    ensures n < count ==> offset + n == Max(offset, |fs.files[name]|)
  {
    if name !in fs.sealed || offset + count <= |fs.files[name]| then count
    else if offset >= |fs.files[name]| then 0
    else |fs.files[name]| - offset
  }

  /** File::Write(data). The part that fits is stored at the handle's
      position, which advances past it; if not all of `data` fits, the write
      reports an I/O error and the handle enters the error state. A handle
      that is empty, not open for writing or in the error state fails
      without effect. A file removed from the namespace while open still
      takes the write, invisibly. */
  function Write(f: File, fs: FileSystem, data: seq<char>): (r: Outcome)
    ensures r.file.Path() == f.Path()
    ensures !f.CanWrite() ==> r == Outcome(Failed(IOError), f, fs)
    ensures f.CanWrite() ==>
      && r.file.Handle? && r.file.mode == f.mode
      && f.offset <= r.file.offset <= f.offset + |data|
    ensures r.status == Ok <==>
      && f.CanWrite()
      && (|data| > 0 && f.name in fs.files && f.name in fs.sealed ==> f.offset + |data| <= |fs.files[f.name]|)
    ensures r.status == Ok ==> r.file == f.(offset := f.offset + |data|)
    ensures f.CanWrite() && f.name in fs.files ==>
      r.file.offset == f.offset + Accepted(fs, f.name, f.offset, |data|)
    ensures r.status.Failed? ==> r.status.error == IOError && !r.file.CanWrite()
    ensures OthersUnchanged(fs, r.fs, f.Path())
    ensures f.CanWrite() && f.name in fs.files ==>
      && WrittenAt(fs.files[f.name], r.fs.files[f.name], f.offset, data[..r.file.offset - f.offset])
      && (f.name in fs.sealed ==> |r.fs.files[f.name]| == |fs.files[f.name]|)
  {
    match f
    case Empty => Outcome(Failed(IOError), f, fs)
    case Handle(name, mode, offset, failed) =>
      if !mode.write || failed then Outcome(Failed(IOError), f, fs)
      else if name !in fs.files then Outcome(Ok, f.(offset := offset + |data|), fs)
      else
        var n := Accepted(fs, name, offset, |data|);
        var content := Splice(fs.files[name], offset, data[..n]);
        var status := if n == |data| then Ok else Failed(IOError);
        Outcome(status, f.(offset := offset + n, failed := n < |data|), fs.(files := fs.files[name := content]))
  }

  /** Once a write has failed, the handle does not heal: every later write
      fails too and changes nothing. */
  lemma FailureSticks(f: File, fs: FileSystem, data: seq<char>, more: seq<char>)
    requires Write(f, fs, data).status.Failed?
    ensures var w := Write(f, fs, data);
      Write(w.file, w.fs, more) == Outcome(Failed(IOError), w.file, w.fs)
  {
  }

  /** File::Close(). Writes reach the file as they are made, so nothing is
      left to flush: closing succeeds even after a failed write, leaves the
      handle empty and the filesystem as it was. Closing an empty handle is
      a no-op. */
  function Close(f: File, fs: FileSystem): (r: Outcome)
    ensures r.status == Ok && r.file.Path() == [] && r.fs == fs
    ensures r.file == Empty
  {
    Outcome(Ok, Empty, fs)
  }

  /** Move construction `File dest(std::move(src))`: the first component is
      what the source is left with, the second what the destination owns. */
  function MoveOut(src: File): (r: (File, File))
    ensures r.0.Path() == [] && r.1.Path() == src.Path()
    ensures r.0 == Empty && r.1 == src
  {
    (Empty, src)
  }

  /** Move assignment `dest = std::move(src)`: the destination first closes
      whatever it owned (its status is discarded), then takes over the
      source's handle; the source is left empty. */
  function MoveAssign(dest: File, src: File, fs: FileSystem): (r: Moved)
    ensures r.source.Path() == [] && r.dest.Path() == src.Path()
    ensures r.source == Empty && r.dest == src
    ensures r.fs == fs
  {
    var closed := Close(dest, fs);
    Moved(src, Empty, closed.fs)
  }

  /** std::swap(a, b): a temporary is move-constructed from `a`, then
      `a = std::move(b)` and `b = std::move(tmp)`. Every move assignment
      lands on a handle that was just emptied, so the handles are exchanged
      and nothing is closed. */
  function Swap(a: File, b: File, fs: FileSystem): (r: (File, File, FileSystem))
    ensures r == (b, a, fs)
  {
    var (a1, tmp) := MoveOut(a);
    var m1 := MoveAssign(a1, b, fs);
    var m2 := MoveAssign(m1.source, tmp, m1.fs);
    (m1.dest, m2.dest, m2.fs)
  }

  /** A handle positioned at the end of an unsealed file appends: the write
      succeeds and the file holds its old contents followed by `data`. */
  lemma WriteAppends(f: File, fs: FileSystem, data: seq<char>)
    requires f.CanWrite() && f.name in fs.files && f.name !in fs.sealed
    requires f.offset == |fs.files[f.name]|
    ensures Write(f, fs, data).status == Ok
    ensures Write(f, fs, data).fs.files[f.name] == fs.files[f.name] + data
    ensures Write(f, fs, data).file.offset == |fs.files[f.name] + data|
  {
    var before := fs.files[f.name];
    var after := Write(f, fs, data).fs.files[f.name];
    if |data| > 0 {
      assert after[..f.offset] == before;
      assert after[f.offset..] == data;
      assert after == after[..f.offset] + after[f.offset..];
    }
  }

  /** Round trip through a fresh file: exclusive creation, one write and a
      close leave exactly the written characters in the file. */
  lemma CreateWriteCloseRoundTrip(fs: FileSystem, path: string, data: seq<char>, mode: FileMode)
    requires path != [] && path !in fs.files
    requires mode.write && mode.create && mode.exclusive
    ensures Open(fs, path, mode).Success?
    ensures var (f, fs1) := Open(fs, path, mode).value;
            var w := Write(f, fs1, data);
            var c := Close(w.file, w.fs);
            && w.status == Ok && c.status == Ok
            && c.fs.files[path] == data
            && c.file.Path() == []
  {
    var (f, fs1) := Open(fs, path, mode).value;
    WriteAppends(f, fs1, data);
  }
}

=== FILE: file_test.dfy ===
/** The scenarios of the file tests, each stated for every filesystem and
    every directory or draw the test could meet: the expected strings and
    statuses of elisp/file_test.cc follow from the model. */
module FileTests {
  import opened Errors
  import opened Paths
  import opened TempNames
  import opened Files
  import TempFiles

  const WriteNew := Union(Union(ModeWrite, ModeCreate), ModeExclusive)

  /** File, WriteRead: create exclusively, write "hello world", close; the
      file then holds exactly that text, and reopening it for reading reports
      the same path. */
  lemma WriteRead(fs: FileSystem, path: string)
    requires path != [] && path !in fs.files
    ensures Open(fs, path, TempFiles.CreateMode).Success?
    ensures var (f, fs1) := Open(fs, path, TempFiles.CreateMode).value;
      var w := Write(f, fs1, "hello world");
      var c := Close(w.file, w.fs);
      && f.Path() == path
      && w.status == Ok && c.status == Ok
      && c.fs.files[path] == "hello world"
      && Open(c.fs, path, ModeRead).Success?
      && var (g, fs2) := Open(c.fs, path, ModeRead).value;
         g.Path() == path && Close(g, fs2).status == Ok
  {
    CreateWriteCloseRoundTrip(fs, path, "hello world", TempFiles.CreateMode);
  }

  /** File, PartialWrite: on a one-character file sealed against growth,
      writing "h" succeeds, writing "i" fails, the close after it reports no
      new error, and the file holds the single character 'h'. */
  lemma PartialWrite(fs: FileSystem, path: string)
    requires path != [] && path in fs.files && path in fs.sealed
    requires fs.files[path] == ['\0']
    ensures Open(fs, path, ModeWrite).Success?
    ensures var (f, fs1) := Open(fs, path, ModeWrite).value;
      var w1 := Write(f, fs1, "h");
      var w2 := Write(w1.file, w1.fs, "i");
      var c := Close(w2.file, w2.fs);
      && w1.status == Ok
      && w2.status.Failed?
      && c.status == Ok
      && c.fs.files[path] == "h"
  {
    var (f, fs1) := Open(fs, path, ModeWrite).value;
    var w1 := Write(f, fs1, "h");
    assert w1.fs.files[path][0..1] == "h";
  }

  /** File, Move: "h" written before the handle moves and "i" written
      through the new owner both land in the file, which then holds "hi";
      a file reopened for reading can be moved into the closed owner and
      closed again. */
  lemma Move(fs: FileSystem, path: string)
    requires path != [] && path !in fs.files
    ensures Open(fs, path, WriteNew).Success?
    ensures var (inner, fs1) := Open(fs, path, WriteNew).value;
      var w1 := Write(inner, fs1, "h");
      var (left, outer) := MoveOut(w1.file);
      var w2 := Write(outer, w1.fs, "i");
      var c := Close(w2.file, w2.fs);
      && w1.status == Ok && left.Path() == [] && w2.status == Ok && c.status == Ok
      && c.fs.files[path] == "hi"
      && Open(c.fs, path, ModeRead).Success?
      && var (g, fs2) := Open(c.fs, path, ModeRead).value;
         var m := MoveAssign(c.file, g, fs2);
         m.dest.Path() == path && Close(m.dest, m.fs).status == Ok
  {
    var (inner, fs1) := Open(fs, path, WriteNew).value;
    WriteAppends(inner, fs1, "h");
    var w1 := Write(inner, fs1, "h");
    WriteAppends(w1.file, w1.fs, "i");
  }

  /** File, AssignRead: a file opened for reading, moved into `a`, moved on
      into `b` and swapped back, is owned by `a` again and closes cleanly. */
  lemma AssignRead(fs: FileSystem, path: string)
    requires path != [] && path in fs.files
    ensures Open(fs, path, ModeRead).Success?
    ensures var (f, fs1) := Open(fs, path, ModeRead).value;
      var (a, b) := MoveOut(f);
      var (a', b', fs2) := Swap(a, b, fs1);
      && a'.Path() == path && b'.Path() == []
      && Close(a', fs2).status == Ok
  {
    var (f, fs1) := Open(fs, path, ModeRead).value;
    var (a, b) := MoveOut(f);
  }

  lemma FooPattern()
    ensures SplitPattern("foo-*.tmp") == Some(("foo-", ".tmp"))
  {
    var pattern := "foo-*.tmp";
    assert pattern[4] == '*';
    assert FirstStar(pattern) == 4 by {
      assert pattern[0] != '*' && pattern[1] != '*' && pattern[2] != '*' && pattern[3] != '*';
    }
    assert pattern[5] == '.';
    assert StarRunEnd(pattern, 4) == 5;
    assert pattern[..4] == "foo-";
    assert pattern[5..] == ".tmp";
  }

  /** The file-name checks both temporary-file tests make. */
  predicate FooName(path: string) {
    var name := FileName(path);
    && |name| >= 4 && name[..4] == "foo-"
    && name[|name| - 4..] == ".tmp"
  }

  /** The expansion of "foo-*.tmp" starts with "foo-" and ends with ".tmp"
      whatever run is put in. */
  lemma FooExpanded(run: string)
    ensures var name := ExpandedName("foo-*.tmp", run);
      && |name| >= 4 && name[..4] == "foo-"
      && name[|name| - 4..] == ".tmp"
  {
    FooPattern();
    var name := "foo-" + run + ".tmp";
    assert ExpandedName("foo-*.tmp", run) == name;
    assert name[..4] == "foo-";
    assert name[|name| - 4..] == ".tmp";
  }

  /** Every name generated from "foo-*.tmp" sits in the directory and
      passes the file-name checks. */
  lemma FooTempName(dir: string, run: string)
    requires ValidRun(run)
    ensures TempName(dir, "foo-*.tmp", run).Success?
    ensures var path := TempName(dir, "foo-*.tmp", run).value;
      Parent(path) == RemoveSlash(dir) && FooName(path)
  {
    FooPattern();
    TempNameInDirectory(dir, "foo-*.tmp", run);
    FooExpanded(run);
  }

  lemma CreatedFooName(fs: FileSystem, dir: string, draws: seq<string>)
    requires TempFiles.ValidDraws(draws)
    requires TempFiles.Create(fs, dir, "foo-*.tmp", draws).Success?
    ensures var (t, fs1) := TempFiles.Create(fs, dir, "foo-*.tmp", draws).value;
      && Parent(t.Path()) == RemoveSlash(dir)
      && FooName(t.Path())
      && t.Path() in fs1.files
  {
    var r := TempFiles.Create(fs, dir, "foo-*.tmp", draws).value;
    var path := r.0.Path();
    var k :| 0 <= k < |draws| && TempName(dir, "foo-*.tmp", draws[k]) == Success(path);
    FooTempName(dir, draws[k]);
  }

  /** TempFile, Create: the new file sits in the requested directory, is
      named after the pattern and exists; after Close its path is empty and
      the file is gone. */
  lemma TempFileCreate(fs: FileSystem, dir: string, draws: seq<string>)
    requires TempFiles.ValidDraws(draws)
    requires TempFiles.Create(fs, dir, "foo-*.tmp", draws).Success?
    ensures var (t, fs1) := TempFiles.Create(fs, dir, "foo-*.tmp", draws).value;
      var path := t.Path();
      var c := TempFiles.Close(t, fs1);
      && Parent(path) == RemoveSlash(dir)
      && FooName(path)
      && path in fs1.files
      && c.status == Ok
      && c.temp.Path() == []
      && path !in c.fs.files
  {
    CreatedFooName(fs, dir, draws);
    var (t, fs1) := TempFiles.Create(fs, dir, "foo-*.tmp", draws).value;
    TempNameNonEmptyPath(fs, dir, draws);
  }

  lemma TempNameNonEmptyPath(fs: FileSystem, dir: string, draws: seq<string>)
    requires TempFiles.ValidDraws(draws)
    requires TempFiles.Create(fs, dir, "foo-*.tmp", draws).Success?
    ensures TempFiles.Create(fs, dir, "foo-*.tmp", draws).value.0.Path() != []
  {
    var (t, fs1) := TempFiles.Create(fs, dir, "foo-*.tmp", draws).value;
    var k :| 0 <= k < |draws| && TempName(dir, "foo-*.tmp", draws[k]) == Success(t.Path());
    FooPattern();
    TempFiles.TempNameNonEmpty(dir, "foo-*.tmp", draws[k]);
  }

  /** TempFile, Write: as Create, and a write of "hello world\n" is in the
      file before Close removes it. */
  lemma TempFileWrite(fs: FileSystem, dir: string, draws: seq<string>)
    requires TempFiles.ValidDraws(draws)
    requires TempFiles.Create(fs, dir, "foo-*.tmp", draws).Success?
    ensures var (t, fs1) := TempFiles.Create(fs, dir, "foo-*.tmp", draws).value;
      var path := t.Path();
      var w := TempFiles.Write(t, fs1, "hello world\n");
      var c := TempFiles.Close(w.temp, w.fs);
      && Parent(path) == RemoveSlash(dir)
      && FooName(path)
      && path in fs1.files
      && w.status == Ok
      && w.fs.files[path] == "hello world\n"
      && c.status == Ok
      && c.temp.Path() == []
      && path !in c.fs.files
  {
    CreatedFooName(fs, dir, draws);
    TempNameNonEmptyPath(fs, dir, draws);
    var (t, fs1) := TempFiles.Create(fs, dir, "foo-*.tmp", draws).value;
    var path := t.Path();
    assert t.file.CanWrite() && t.file.offset == 0 && fs1.files[path] == [];
    assert path !in fs1.sealed;
    WriteAppends(t.file, fs1, "hello world\n");
    var w := TempFiles.Write(t, fs1, "hello world\n");
    assert w.status == Ok && w.fs.files[path] == "hello world\n";
    assert w.temp.PendingDeletion() && w.temp.Path() == path && path in w.fs.files;
  }
}

=== FILE: manifest.dfy ===
/** The action manifest: manifest.add extends a command line with the flag
    naming the manifest file, and manifest.write describes an action's
    files as a JSON object. JSON text is not modelled; the object is a map
    from keys to string or string-array values. */
module Manifests {
  import opened Errors

  /** The options manifest.write reads: load directories, load files, data
      files and rule tags, each in command-line order. */
  datatype Options = Options(
    loadDirectories: seq<string>,
    loadFiles: seq<string>,
    dataFiles: seq<string>,
    ruleTags: seq<string>)

  /** The fields of the manifest object. */
  datatype Manifest = Manifest(
    root: string,
    loadPath: seq<string>,
    inputFiles: seq<string>,
    outputFiles: seq<string>,
    tags: seq<string>)

  /** A JSON value of the kinds the manifest uses. */
  datatype Json = JString(str: string) | JArray(items: seq<string>)

  /** The placeholder the runner later replaces with the runfiles root. */
  const RunfilesRoot := "RUNFILES_ROOT"

  const ManifestFlag := "--manifest="

  const Keys: set<string> := {"root", "loadPath", "inputFiles", "outputFiles", "tags"}

  /** manifest.add in `wrap` mode: the existing arguments stay in front,
      followed by the flag naming the manifest file and the `--` that ends
      the wrapper's own options. */
  function Add(args: seq<string>, manifestName: string): (r: seq<string>)
    ensures |r| == |args| + 2
    ensures r[..|args|] == args
    ensures |r[|args|]| >= |ManifestFlag| && r[|args|][..|ManifestFlag|] == ManifestFlag
    ensures r[|args|][|ManifestFlag|..] == manifestName
    ensures r[|args| + 1] == "--"
  {
    args + [ManifestFlag + manifestName, "--"]
  }

  /** The manifest file named by a `--manifest=` argument, if it is one. */
  function ManifestName(arg: string): (r: Option<string>)
    ensures r.Some? <==> |arg| >= |ManifestFlag| && arg[..|ManifestFlag|] == ManifestFlag
    ensures r.Some? ==> ManifestFlag + r.value == arg
  {
    if |arg| >= |ManifestFlag| && arg[..|ManifestFlag|] == ManifestFlag then
      Some(arg[|ManifestFlag|..])
    else None
  }

  /** The flag Add appends names the manifest file it was given. */
  lemma AddNamesManifest(args: seq<string>, manifestName: string)
    ensures ManifestName(Add(args, manifestName)[|args|]) == Some(manifestName)
  {
  }

  /** manifest.add, test_add: ['--foo'] becomes ['--foo', '--manifest=…', '--']. */
  lemma AddExample(manifestName: string)
    ensures var r := Add(["--foo"], manifestName);
      && |r| == 3 && r[0] == "--foo"
      && ManifestName(r[1]).Some?
      && r[2] == "--"
  {
    AddNamesManifest(["--foo"], manifestName);
  }

  /** The manifest record for an action: the constant root, the load path,
      the inputs followed by the load files and then the data files, the
      outputs and the rule tags, each list in the order given. */
  function Build(opts: Options, inputs: seq<string>, outputs: seq<string>): (m: Manifest)
    ensures m.root == RunfilesRoot
    ensures m.loadPath == opts.loadDirectories
    ensures |m.inputFiles| == |inputs| + |opts.loadFiles| + |opts.dataFiles|
    ensures m.inputFiles[..|inputs|] == inputs
    ensures m.inputFiles[|inputs|..|inputs| + |opts.loadFiles|] == opts.loadFiles
    ensures m.inputFiles[|inputs| + |opts.loadFiles|..] == opts.dataFiles
    ensures m.outputFiles == outputs
    ensures m.tags == opts.ruleTags
  {
    Manifest(RunfilesRoot, opts.loadDirectories, inputs + opts.loadFiles + opts.dataFiles, outputs, opts.ruleTags)
  }

  /** The JSON object of a manifest record. */
  function Encode(m: Manifest): (obj: map<string, Json>)
    ensures obj.Keys == Keys
  {
    map[
      "root" := JString(m.root),
      "loadPath" := JArray(m.loadPath),
      "inputFiles" := JArray(m.inputFiles),
      "outputFiles" := JArray(m.outputFiles),
      "tags" := JArray(m.tags)]
  }

  /** Reads a manifest record back from a JSON object; None when a key is
      missing or holds the wrong kind of value. */
  function Decode(obj: map<string, Json>): (r: Option<Manifest>)
    ensures r.Some? ==> Keys <= obj.Keys
    ensures r.Some? ==> obj["root"] == JString(r.value.root) && obj["tags"] == JArray(r.value.tags)
    ensures r.Some? ==> forall k :: k in Keys ==> obj[k] == Encode(r.value)[k]
  {
    if && "root" in obj && obj["root"].JString?
       && "loadPath" in obj && obj["loadPath"].JArray?
       && "inputFiles" in obj && obj["inputFiles"].JArray?
       && "outputFiles" in obj && obj["outputFiles"].JArray?
       && "tags" in obj && obj["tags"].JArray?
    then
      Some(Manifest(obj["root"].str, obj["loadPath"].items, obj["inputFiles"].items,
                    obj["outputFiles"].items, obj["tags"].items))
    else None
  }

  /** Decoding undoes encoding. */
  lemma DecodeEncode(m: Manifest)
    ensures Decode(Encode(m)) == Some(m)
  {
  }

  /** manifest.write(opts, inputs, outputs, file): the object it writes. */
  function Write(opts: Options, inputs: seq<string>, outputs: seq<string>): (obj: map<string, Json>)
    ensures obj.Keys == Keys
    ensures obj["root"] == JString(RunfilesRoot)
    ensures Decode(obj) == Some(Build(opts, inputs, outputs))
  {
    var m := Build(opts, inputs, outputs);
    DecodeEncode(m);
    Encode(m)
  }

  /** manifest.write, test_write: the object for one load directory, load
      file and data file, two inputs, one output and two tags. */
  lemma WriteExample()
    ensures Write(Options(["load-dir"], ["load-file"], ["data-file"], ["tag-1", "tag-2"]),
                  ["in-1", "in-2"], ["out"])
         == map[
              "root" := JString("RUNFILES_ROOT"),
              "loadPath" := JArray(["load-dir"]),
              "inputFiles" := JArray(["in-1", "in-2", "load-file", "data-file"]),
              "outputFiles" := JArray(["out"]),
              "tags" := JArray(["tag-1", "tag-2"])]
  {
    assert ["in-1", "in-2"] + ["load-file"] + ["data-file"] == ["in-1", "in-2", "load-file", "data-file"];
  }
}

=== FILE: paths.dfy ===
/** Pure path-string helpers: the name-splitting helpers that the file tests
    use to inspect generated paths, and the syntactic JoinPath of the file
    layer. Paths are character sequences; nothing here touches a filesystem. */
module Paths {

  predicate StartsWithSlash(s: string) {
    |s| > 0 && s[0] == '/'
  }

  predicate EndsWithSlash(s: string) {
    |s| > 0 && s[|s| - 1] == '/'
  }

  /** Characters `i - 1` and `i` of `s` are both slashes. */
  predicate SlashPair(s: string, i: int)
    requires 0 < i < |s|
  {
    s[i - 1] == '/' && s[i] == '/'
  }

  /** No two adjacent characters of `s` are both slashes. */
  predicate NoDoubleSlash(s: string) {
    forall i :: 0 < i < |s| ==> !SlashPair(s, i)
  }

  /** The index of the last slash in `name`, or -1 when there is none
      (string_view::rfind, with -1 standing for npos). */
  function LastSlash(name: string): (r: int)
    ensures -1 <= r < |name|
    ensures r >= 0 ==> name[r] == '/'
    ensures forall j :: r < j < |name| ==> name[j] != '/'
  {
    if |name| == 0 then -1
    else if name[|name| - 1] == '/' then |name| - 1
    else LastSlash(name[..|name| - 1])
  }

  /** The part of `name` after its last slash; all of `name` when it has no
      slash. */
  function FileName(name: string): (r: string)
    ensures '/' !in r
    ensures |r| <= |name| && name[|name| - |r|..] == r
    ensures '/' !in name ==> r == name
  {
    var pos := LastSlash(name);
    if pos < 0 then name else name[pos + 1..]
  }

  /** The part of `name` before its last slash; empty when it has no slash. */
  function Parent(name: string): (r: string)
    ensures '/' !in name ==> r == []
    ensures '/' in name ==> r + "/" + FileName(name) == name
  {
    var pos := LastSlash(name);
    if pos < 0 then [] else name[..pos]
  }

  /** Splitting undoes joining: a directory and a slash-free base name joined
      by one slash split back into exactly that directory and base name. */
  lemma SplitJoinedName(dir: string, base: string)
    requires '/' !in base
    ensures Parent(dir + "/" + base) == dir
    ensures FileName(dir + "/" + base) == base
  {
    var name := dir + "/" + base;
    var pos := LastSlash(name);
    assert name[|dir|] == '/';
    assert pos == |dir|;
    assert name[..pos] == dir;
    assert name[pos + 1..] == base;
  }

  /** `name` without one trailing slash, if it has one. */
  function RemoveSlash(name: string): (r: string)
    ensures r == name || r + "/" == name
    ensures r == name <==> !EndsWithSlash(name)
  {
    if EndsWithSlash(name) then name[..|name| - 1] else name
  }

  /** `name` without one leading slash, if it has one. */
  function RemoveLeadingSlash(name: string): (r: string)
    ensures r == name || "/" + r == name
    ensures r == name <==> !StartsWithSlash(name)
  {
    if StartsWithSlash(name) then name[1..] else name
  }

  /** The parts joined with one slash between neighbours. */
  function Intercalate(parts: seq<string>): string
  {
    if |parts| == 0 then []
    else if |parts| == 1 then parts[0]
    else parts[0] + "/" + Intercalate(parts[1..])
  }

  /** Piece `i` as it appears in a joined path: a piece that is not the last
      loses one trailing slash, a piece that is not the first loses one
      leading slash. */
  function Trim(pieces: seq<string>, i: nat): string
    requires i < |pieces|
  {
    var p := if i + 1 < |pieces| then RemoveSlash(pieces[i]) else pieces[i];
    if i > 0 then RemoveLeadingSlash(p) else p
  }

  function Trims(pieces: seq<string>): (r: seq<string>)
    ensures |r| == |pieces|
    ensures forall i :: 0 <= i < |pieces| ==> r[i] == Trim(pieces, i)
  {
    seq(|pieces|, i requires 0 <= i < |pieces| => Trim(pieces, i))
  }

  /** JoinPath(pieces...): a syntactic join with one slash at every boundary.
      No `.` or `..` normalisation takes place. */
  function JoinPath(pieces: seq<string>): (r: string)
    ensures |pieces| == 0 ==> r == []
    ensures |pieces| == 1 ==> r == pieces[0]
  {
    Intercalate(Trims(pieces))
  }

  /** A piece that keeps a name after its boundary slashes are removed:
      neither empty nor a lone slash. */
  predicate ProperPiece(p: string) {
    p != [] && p != "/"
  }

  /** The step-wise reading of JoinPath: append each piece in turn to the
      path built so far, dropping one slash on either side of the new
      boundary. It serves as an independent reference definition. */
  function JoinPathStepwise(pieces: seq<string>): string
  {
    if |pieces| == 0 then []
    else if |pieces| == 1 then pieces[0]
    else RemoveSlash(JoinPathStepwise(pieces[..|pieces| - 1])) + "/" + RemoveLeadingSlash(pieces[|pieces| - 1])
  }

  lemma {:induction false} IntercalateLast(parts: seq<string>)
    requires |parts| >= 2
    ensures Intercalate(parts) == Intercalate(parts[..|parts| - 1]) + "/" + parts[|parts| - 1]
  {
    if |parts| == 2 {
      assert parts[1..] == [parts[1]];
      assert parts[..1] == [parts[0]];
    } else {
      var rest := parts[1..];
      IntercalateLast(rest);
      assert parts[..|parts| - 1][1..] == rest[..|rest| - 1];
      assert rest[|rest| - 1] == parts[|parts| - 1];
    }
  }

  /** A joined path begins with its first part. */
  lemma IntercalateFirst(parts: seq<string>)
    requires |parts| >= 1
    ensures |parts[0]| <= |Intercalate(parts)|
    ensures Intercalate(parts)[..|parts[0]|] == parts[0]
  {
  }

  /** Joining two pieces: the first loses one trailing slash, the second one
      leading slash, and a single slash goes between them. */
  lemma JoinPathTwo(a: string, b: string)
    ensures JoinPath([a, b]) == RemoveSlash(a) + "/" + RemoveLeadingSlash(b)
  {
    var t := Trims([a, b]);
    assert t[0] == RemoveSlash(a);
    assert t[1] == RemoveLeadingSlash(b);
    assert t[1..] == [t[1]];
    assert Intercalate(t) == t[0] + "/" + Intercalate(t[1..]);
  }

  lemma JoinPathThree(a: string, b: string, c: string)
    ensures JoinPath([a, b, c])
         == RemoveSlash(a) + "/" + RemoveLeadingSlash(RemoveSlash(b)) + "/" + RemoveLeadingSlash(c)
  {
    var t := Trims([a, b, c]);
    assert t[0] == RemoveSlash(a);
    assert t[1] == RemoveLeadingSlash(RemoveSlash(b));
    assert t[2] == RemoveLeadingSlash(c);
    assert t[1..][1..] == [t[2]];
    assert Intercalate(t[1..]) == t[1] + "/" + Intercalate(t[1..][1..]);
    assert Intercalate(t) == t[0] + "/" + Intercalate(t[1..]);
  }

  /** JoinPath, tests Relative and Absolute. */
  lemma JoinPathThreePieces()
    ensures JoinPath(["foo/", "/bar/", "baz/qux/"]) == "foo/bar/baz/qux/"
    ensures JoinPath(["/foo/", "/bar/", "baz/qux/"]) == "/foo/bar/baz/qux/"
  {
    assert RemoveSlash("/bar/") == "/bar";
    assert RemoveLeadingSlash("/bar") == "bar";
    assert RemoveLeadingSlash("baz/qux/") == "baz/qux/";
    JoinPathThree("foo/", "/bar/", "baz/qux/");
    assert RemoveSlash("foo/") == "foo";
    JoinPathThree("/foo/", "/bar/", "baz/qux/");
    assert RemoveSlash("/foo/") == "/foo";
  }

  /** JoinPath, tests TwoPieces, Root and FinalSlash. */
  lemma JoinPathTwoPieces()
    ensures JoinPath(["/foo/", "/bar/"]) == "/foo/bar/"
    ensures JoinPath(["/", "file"]) == "/file"
    ensures JoinPath(["dir", "/"]) == "dir/"
  {
    JoinPathTwo("/foo/", "/bar/");
    assert RemoveSlash("/foo/") == "/foo";
    assert RemoveLeadingSlash("/bar/") == "bar/";
    JoinPathTwo("/", "file");
    assert RemoveSlash("/") == "";
    assert RemoveLeadingSlash("file") == "file";
    JoinPathTwo("dir", "/");
    assert RemoveSlash("dir") == "dir";
    assert RemoveLeadingSlash("/") == "";
  }

  /** An absolute first piece gives an absolute path. */
  lemma JoinPathKeepsLeadingSlash(pieces: seq<string>)
    requires |pieces| > 0 && StartsWithSlash(pieces[0])
    ensures StartsWithSlash(JoinPath(pieces))
  {
    var t := Trims(pieces);
    if |pieces| > 1 {
      assert t[0] == RemoveSlash(pieces[0]);
      if |t[0]| > 0 {
        assert t[0][0] == pieces[0][0];
      }
    }
  }

  /** A trailing slash on the last piece survives the join. */
  lemma JoinPathKeepsTrailingSlash(pieces: seq<string>)
    requires |pieces| > 0 && EndsWithSlash(pieces[|pieces| - 1])
    ensures EndsWithSlash(JoinPath(pieces))
  {
    var t := Trims(pieces);
    var n := |pieces|;
    if n > 1 {
      IntercalateLast(t);
      var last := t[n - 1];
      assert last == RemoveLeadingSlash(pieces[n - 1]);
      if |last| > 0 {
        assert last[|last| - 1] == pieces[n - 1][|pieces[n - 1]| - 1];
      }
    }
  }

  lemma NoDoubleSlashAround(a: string, b: string)
    requires NoDoubleSlash(a) && NoDoubleSlash(b)
    requires !EndsWithSlash(a) && !StartsWithSlash(b)
    ensures NoDoubleSlash(a + "/" + b)
  {
    var s := a + "/" + b;
    forall i | 0 < i < |s|
      ensures !SlashPair(s, i)
    {
      if i < |a| {
        assert !SlashPair(a, i);
        assert s[i - 1] == a[i - 1] && s[i] == a[i];
      } else if i == |a| {
        assert s[i - 1] == a[|a| - 1];
      } else if i == |a| + 1 {
        assert s[i] == b[0];
      } else {
        assert !SlashPair(b, i - 1 - |a|);
        assert s[i - 1] == b[i - 2 - |a|] && s[i] == b[i - 1 - |a|];
      }
    }
  }

  /** Joining parts that have no double slash inside, no slash at an inner
      boundary and no empty middle part leaves no double slash. */
  lemma {:induction false} IntercalateNoDoubleSlash(parts: seq<string>)
    requires forall i :: 0 <= i < |parts| ==> NoDoubleSlash(parts[i])
    requires forall i :: 0 < i < |parts| ==> !StartsWithSlash(parts[i])
    requires forall i :: 0 <= i < |parts| - 1 ==> !EndsWithSlash(parts[i])
    requires forall i :: 0 < i < |parts| - 1 ==> parts[i] != []
    ensures NoDoubleSlash(Intercalate(parts))
  {
    if |parts| > 1 {
      var rest := parts[1..];
      forall i | 0 <= i < |rest|
        ensures NoDoubleSlash(rest[i]) && (i > 0 ==> !StartsWithSlash(rest[i]))
      {
        assert rest[i] == parts[i + 1];
      }
      forall i | 0 <= i < |rest| - 1
        ensures !EndsWithSlash(rest[i]) && (i > 0 ==> rest[i] != [])
      {
        assert rest[i] == parts[i + 1];
      }
      IntercalateNoDoubleSlash(rest);
      IntercalateFirst(rest);
      assert rest[0] == parts[1];
      assert !StartsWithSlash(rest[0]);
      if |rest| > 1 {
        assert rest[0] != [];
        assert Intercalate(rest)[0] == rest[0][0];
      }
      NoDoubleSlashAround(parts[0], Intercalate(rest));
    }
  }

  /** A slice of a string without double slashes has none either. */
  lemma NoDoubleSlashSlice(p: string, lo: nat, hi: nat)
    requires lo <= hi <= |p| && NoDoubleSlash(p)
    ensures NoDoubleSlash(p[lo..hi])
  {
    var s := p[lo..hi];
    forall i | 0 < i < |s|
      ensures !SlashPair(s, i)
    {
      assert !SlashPair(p, lo + i);
    }
  }

  lemma TrimShape(pieces: seq<string>, i: nat)
    requires i < |pieces| && NoDoubleSlash(pieces[i])
    ensures NoDoubleSlash(Trim(pieces, i))
    ensures i > 0 ==> !StartsWithSlash(Trim(pieces, i))
    ensures i + 1 < |pieces| ==> !EndsWithSlash(Trim(pieces, i))
    ensures 0 < i < |pieces| - 1 && ProperPiece(pieces[i]) ==> Trim(pieces, i) != []
  {
    var p := pieces[i];
    var hi := if i + 1 < |pieces| && EndsWithSlash(p) then |p| - 1 else |p|;
    var q := p[..hi];
    assert q == if i + 1 < |pieces| then RemoveSlash(p) else p;
    var lo := if i > 0 && StartsWithSlash(q) then 1 else 0;
    assert p[lo..hi] == Trim(pieces, i);
    NoDoubleSlashSlice(p, lo, hi);
    if hi < |p| && hi > 0 {
      assert !SlashPair(p, hi);
    }
    if lo == 1 && |p| > 1 {
      assert !SlashPair(p, 1);
    }
  }

  /** One slash at every boundary: when no piece holds a double slash and
      every middle piece keeps a name, the joined path holds none either. */
  lemma JoinPathSingleSeparators(pieces: seq<string>)
    requires forall i :: 0 <= i < |pieces| ==> NoDoubleSlash(pieces[i])
    requires forall i :: 0 < i < |pieces| - 1 ==> ProperPiece(pieces[i])
    ensures NoDoubleSlash(JoinPath(pieces))
  {
    var t := Trims(pieces);
    forall i | 0 <= i < |t|
      ensures NoDoubleSlash(t[i])
      ensures i > 0 ==> !StartsWithSlash(t[i])
      ensures i < |t| - 1 ==> !EndsWithSlash(t[i])
      ensures 0 < i < |t| - 1 ==> t[i] != []
    {
      TrimShape(pieces, i);
    }
    IntercalateNoDoubleSlash(t);
  }

  /** Removing a trailing slash only touches a non-empty last part. */
  lemma RemoveSlashAppend(u: string, v: string)
    requires v != []
    ensures RemoveSlash(u + v) == u + RemoveSlash(v)
  {
    if EndsWithSlash(v) {
      assert (u + v)[|u + v| - 1] == v[|v| - 1];
      assert (u + v)[..|u + v| - 1] == u + v[..|v| - 1];
    } else {
      assert (u + v)[|u + v| - 1] == v[|v| - 1];
    }
  }

  /** Removing a trailing slash from a join only touches its last part,
      provided that part is not empty. */
  lemma IntercalateRemoveSlash(parts: seq<string>)
    requires |parts| >= 1
    requires |parts| == 1 || parts[|parts| - 1] != []
    ensures RemoveSlash(Intercalate(parts))
         == Intercalate(parts[..|parts| - 1] + [RemoveSlash(parts[|parts| - 1])])
  {
    var n := |parts|;
    if n >= 2 {
      var init := parts[..n - 1];
      assert parts == init + [parts[n - 1]];
      IntercalateSnocRemoveSlash(init, parts[n - 1]);
    }
  }

  /** Appending one part to a non-empty join adds a slash and the part. */
  lemma IntercalateSnoc(init: seq<string>, last: string)
    requires |init| >= 1
    ensures Intercalate(init + [last]) == Intercalate(init) + "/" + last
  {
    var parts := init + [last];
    IntercalateLast(parts);
    assert parts[..|parts| - 1] == init;
  }

  lemma IntercalateSnocRemoveSlash(init: seq<string>, last: string)
    requires |init| >= 1 && last != []
    ensures RemoveSlash(Intercalate(init + [last])) == Intercalate(init + [RemoveSlash(last)])
  {
    var x := Intercalate(init);
    IntercalateSnoc(init, last);
    IntercalateSnoc(init, RemoveSlash(last));
    RemoveSlashAppend(x + "/", last);
  }

  lemma RemoveSlashesCommute(p: string)
    ensures RemoveLeadingSlash(RemoveSlash(p)) == RemoveSlash(RemoveLeadingSlash(p))
  {
    if |p| >= 2 && StartsWithSlash(p) && EndsWithSlash(p) {
      assert RemoveSlash(p)[0] == '/';
      assert RemoveLeadingSlash(p)[|p| - 2] == '/';
    } else if |p| >= 2 && StartsWithSlash(p) {
      assert RemoveSlash(p) == p;
      assert !EndsWithSlash(RemoveLeadingSlash(p));
    } else if |p| >= 2 && EndsWithSlash(p) {
      assert RemoveLeadingSlash(p) == p;
      assert !StartsWithSlash(RemoveSlash(p));
    }
  }

  /** Appending a piece only changes how the previously last piece is
      trimmed: it now also loses a trailing slash. */
  lemma TrimsExtend(pieces: seq<string>)
    requires |pieces| >= 2
    ensures var q := Trims(pieces[..|pieces| - 1]);
            Trims(pieces)[..|pieces| - 1] == q[..|q| - 1] + [RemoveSlash(q[|q| - 1])]
  {
    var n := |pieces|;
    var q := Trims(pieces[..n - 1]);
    var t := Trims(pieces);
    var u := q[..n - 2] + [RemoveSlash(q[n - 2])];
    forall i | 0 <= i < n - 1
      ensures t[i] == u[i]
    {
      assert pieces[..n - 1][i] == pieces[i];
      if i == n - 2 {
        RemoveSlashesCommute(pieces[i]);
      }
    }
  }

  /** An empty middle piece keeps both of its boundary slashes under the
      per-piece rule, while the fold merges them. */
  lemma JoinPathEmptyMiddle()
    ensures JoinPath(["a", "", "b"]) == "a//b"
    ensures JoinPathStepwise(["a", "", "b"]) == "a/b"
  {
    JoinPathThree("a", "", "b");
    assert RemoveSlash("a") == "a";
    assert RemoveLeadingSlash("b") == "b";
    var q := ["a", "", "b"][..2];
    assert q == ["a", ""];
    assert q[..1] == ["a"];
    assert JoinPathStepwise(q) == "a/";
  }

  /** One step of the fold: once the prefix without the last piece joins
      to the per-piece result, appending the last piece gives the per-piece
      result of the whole. */
  lemma JoinPathAppend(pieces: seq<string>)
    requires |pieces| >= 2
    requires |pieces| >= 3 ==> ProperPiece(pieces[|pieces| - 2])
    ensures JoinPath(pieces)
         == RemoveSlash(JoinPath(pieces[..|pieces| - 1])) + "/" + RemoveLeadingSlash(pieces[|pieces| - 1])
  {
    var n := |pieces|;
    var tq := Trims(pieces[..n - 1]);
    var tp := Trims(pieces);
    assert tp[n - 1] == RemoveLeadingSlash(pieces[n - 1]);
    if n >= 3 {
      assert pieces[..n - 1][n - 2] == pieces[n - 2];
      assert tq[n - 2] == RemoveLeadingSlash(pieces[n - 2]);
    }
    IntercalateRemoveSlash(tq);
    TrimsExtend(pieces);
    IntercalateLast(tp);
  }

  /** The step-wise join and the per-piece rule agree whenever every middle
      piece keeps a name. */
  lemma {:induction false} JoinPathStepwiseAgrees(pieces: seq<string>)
    requires forall i :: 0 < i < |pieces| - 1 ==> ProperPiece(pieces[i])
    ensures JoinPathStepwise(pieces) == JoinPath(pieces)
  {
    var n := |pieces|;
    if n == 1 {
      assert Trims(pieces) == [pieces[0]];
    } else if n >= 2 {
      var q := pieces[..n - 1];
      assert forall i :: 0 < i < |q| - 1 ==> q[i] == pieces[i];
      JoinPathStepwiseAgrees(q);
      JoinPathAppend(pieces);
    }
  }
}

=== FILE: temp_file.dfy ===
/** The temporary-file handle: a file handle that removes its file when it is
    closed. Creation tries one generated name per draw of the random
    generator until one can be created exclusively. */
module TempFiles {
  import opened Errors
  import opened Paths
  import opened TempNames
  import opened Files

  /** TempFile. The handle owes the deletion of its file exactly when it owns
      an open file. Every handle the operations build is valid: an open file
      has a non-empty name, so the obligation and the path are cleared
      together. */
  datatype TempFile = TempFile(file: File) {

    /** TempFile::path(). */
    function Path(): string {
      file.Path()
    }

    predicate PendingDeletion() {
      file.Handle?
    }

    /** A handle that owes a deletion names the file to delete. */
    predicate Valid() {
      PendingDeletion() ==> Path() != []
    }
  }

  /** The status of an operation, with the handle and filesystem after it. */
  datatype TempOutcome = TempOutcome(status: Status, temp: TempFile, fs: FileSystem)

  /** The state after a move assignment `dest = std::move(source)`. */
  datatype TempMoved = TempMoved(dest: TempFile, source: TempFile, fs: FileSystem)

  /** kReadWrite | kCreate | kExclusive, the mode of every creation attempt. */
  const CreateMode := Union(Union(ModeReadWrite, ModeCreate), ModeExclusive)

  /** Every draw is a run the generator can produce. */
  predicate ValidDraws(draws: seq<string>) {
    forall i :: 0 <= i < |draws| ==> ValidRun(draws[i])
  }

  /** Some draw from `i` on names a path that does not exist yet. */
  predicate FreeDrawFrom(fs: FileSystem, dir: string, pattern: string, draws: seq<string>, i: nat)
    requires ValidDraws(draws) && '*' in pattern
  {
    exists k :: i <= k < |draws| && TempName(dir, pattern, draws[k]).value !in fs.files
  }

  /** A generated name is never empty: it holds the separator JoinPath puts
      after the directory. */
  lemma TempNameNonEmpty(dir: string, pattern: string, run: string)
    requires ValidRun(run) && '*' in pattern
    ensures TempName(dir, pattern, run).value != []
  {
    TempNameIsJoin(dir, pattern, run);
  }

  /** The creation attempts from draw `i` on. A collision moves on to the
      next draw; any other failure is reported at once; running out of
      draws is resource exhaustion. Creation therefore succeeds exactly when
      some remaining draw names a free path, and it takes the first such
      draw. */
  function CreateFrom(fs: FileSystem, dir: string, pattern: string, draws: seq<string>, i: nat)
    : (r: Result<(TempFile, FileSystem)>)
    requires ValidDraws(draws) && i <= |draws|
    ensures r.Success? <==> '*' in pattern && FreeDrawFrom(fs, dir, pattern, draws, i)
    ensures r.Success? ==>
      var (t, fs') := r.value;
      && t.PendingDeletion() && t.Valid()
      && t.file.mode == CreateMode && t.file.offset == 0 && !t.file.failed
      && (exists k :: i <= k < |draws| && TempName(dir, pattern, draws[k]) == Success(t.Path())
           && forall j :: i <= j < k ==> TempName(dir, pattern, draws[j]).value in fs.files)
      && t.Path() !in fs.files
      && fs'.files == fs.files[t.Path() := []]
      && fs'.sealed == fs.sealed - {t.Path()}
    ensures r.Failure? ==> r.error == InvalidArgument || r.error == ResourceExhausted
    ensures r.Failure? && r.error == ResourceExhausted ==>
      forall k :: i <= k < |draws| ==>
        TempName(dir, pattern, draws[k]).Success? && TempName(dir, pattern, draws[k]).value in fs.files
    ensures r.Failure? && r.error == InvalidArgument <==> i < |draws| && '*' !in pattern
    decreases |draws| - i
  {
    if i == |draws| then Failure(ResourceExhausted)
    else
      var name :- TempName(dir, pattern, draws[i]);
      TempNameNonEmpty(dir, pattern, draws[i]);
      match Open(fs, name, CreateMode)
      case Success((f, fs')) => Success((TempFile(f), fs'))
      case Failure(e) =>
        if e == AlreadyExists then CreateFrom(fs, dir, pattern, draws, i + 1) else Failure(e)
  }

  /** TempFile::Create(directory, pattern, random), trying one name per
      draw. */
  function Create(fs: FileSystem, dir: string, pattern: string, draws: seq<string>)
    : (r: Result<(TempFile, FileSystem)>)
    requires ValidDraws(draws)
    ensures r.Success? <==> '*' in pattern && FreeDrawFrom(fs, dir, pattern, draws, 0)
    ensures r.Success? ==>
      var (t, fs') := r.value;
      && t.PendingDeletion() && t.Valid()
      && t.file.mode == CreateMode && t.file.offset == 0 && !t.file.failed
      && (exists k :: 0 <= k < |draws| && TempName(dir, pattern, draws[k]) == Success(t.Path())
           && forall j :: 0 <= j < k ==> TempName(dir, pattern, draws[j]).value in fs.files)
      && t.Path() !in fs.files
      && fs'.files == fs.files[t.Path() := []]
      && fs'.sealed == fs.sealed - {t.Path()}
    ensures r.Failure? ==> r.error == InvalidArgument || r.error == ResourceExhausted
    ensures r.Failure? && r.error == ResourceExhausted ==>
      forall k :: 0 <= k < |draws| ==>
        TempName(dir, pattern, draws[k]).Success? && TempName(dir, pattern, draws[k]).value in fs.files
    ensures r.Failure? && r.error == InvalidArgument <==> |draws| > 0 && '*' !in pattern
  {
    CreateFrom(fs, dir, pattern, draws, 0)
  }

  /** When the first draw names a free path, creation succeeds with it. */
  lemma CreateUsesFreeName(fs: FileSystem, dir: string, pattern: string, draws: seq<string>)
    requires ValidDraws(draws) && |draws| > 0 && '*' in pattern
    requires TempName(dir, pattern, draws[0]).value !in fs.files
    ensures Create(fs, dir, pattern, draws).Success?
    ensures Create(fs, dir, pattern, draws).value.0.Path() == TempName(dir, pattern, draws[0]).value
  {
    TempNameNonEmpty(dir, pattern, draws[0]);
  }

  /** A created file sits directly in the requested directory (with one
      trailing slash removed), its name is the pattern with one draw put in
      for the placeholder, and it exists. */
  lemma CreateInDirectory(fs: FileSystem, dir: string, pattern: string, draws: seq<string>)
    requires ValidDraws(draws) && '/' !in pattern
    requires Create(fs, dir, pattern, draws).Success?
    ensures var (t, fs') := Create(fs, dir, pattern, draws).value;
      && Parent(t.Path()) == RemoveSlash(dir)
      && (exists k :: 0 <= k < |draws| && FileName(t.Path()) == ExpandedName(pattern, draws[k]))
      && t.Path() in fs'.files && fs'.files[t.Path()] == []
  {
    var (t, fs') := Create(fs, dir, pattern, draws).value;
    var k :| 0 <= k < |draws| && TempName(dir, pattern, draws[k]) == Success(t.Path());
    TempNameInDirectory(dir, pattern, draws[k]);
  }

  /** TempFile::Write(data): a write through the underlying file handle. */
  function Write(t: TempFile, fs: FileSystem, data: seq<char>): (r: TempOutcome)
    ensures r.temp.Path() == t.Path()
    ensures r.temp.PendingDeletion() == t.PendingDeletion()
    ensures t.Valid() ==> r.temp.Valid()
    ensures r.status == Ok <==>
      && t.file.CanWrite()
      && (|data| > 0 && t.Path() in fs.files && t.Path() in fs.sealed ==> t.file.offset + |data| <= |fs.files[t.Path()]|)
    ensures !t.file.CanWrite() ==> r == TempOutcome(Failed(IOError), t, fs)
    ensures r.status == Ok ==> r.temp.file == t.file.(offset := t.file.offset + |data|)
    ensures t.file.CanWrite() && t.Path() in fs.files ==>
      r.temp.file.offset == t.file.offset + Accepted(fs, t.Path(), t.file.offset, |data|)
    ensures r.status.Failed? ==> r.status.error == IOError && !r.temp.file.CanWrite()
    ensures OthersUnchanged(fs, r.fs, t.Path())
    ensures t.file.CanWrite() ==> t.file.offset <= r.temp.file.offset <= t.file.offset + |data|
    ensures t.file.CanWrite() && t.Path() in fs.files ==>
      WrittenAt(fs.files[t.Path()], r.fs.files[t.Path()], t.file.offset, data[..r.temp.file.offset - t.file.offset])
  {
    var w := Files.Write(t.file, fs, data);
    TempOutcome(w.status, TempFile(w.file), w.fs)
  }

  /** A write at the end of a fresh temporary file is visible in the file
      until Close removes it. */
  lemma WriteThenClose(t: TempFile, fs: FileSystem, data: seq<char>)
    requires t.Valid() && t.file.CanWrite()
    requires t.Path() in fs.files && t.Path() !in fs.sealed
    requires t.file.offset == |fs.files[t.Path()]|
    ensures var w := Write(t, fs, data);
      var c := Close(w.temp, w.fs);
      && w.status == Ok
      && w.fs.files[t.Path()] == fs.files[t.Path()] + data
      && c.status == Ok && c.temp.Path() == []
      && t.Path() !in c.fs.files
  {
    WriteAppends(t.file, fs, data);
  }

  /** TempFile::Close(): closes the descriptor, then removes the file. A
      failed removal is reported unless closing already failed, whose error
      takes precedence. Either way the handle ends empty and owes no
      deletion. Closing an empty handle is a no-op. */
  function Close(t: TempFile, fs: FileSystem): (r: TempOutcome)
    requires t.Valid()
    ensures r.temp.Path() == [] && !r.temp.PendingDeletion()
    ensures t.Path() != [] ==> t.Path() !in r.fs.files
    ensures forall p :: p != t.Path() ==> (p in r.fs.files <==> p in fs.files)
    ensures forall p :: p != t.Path() && p in fs.files ==> r.fs.files[p] == fs.files[p]
    ensures r.status == Ok <==> !t.PendingDeletion() || t.Path() in fs.files
    ensures r.status.Failed? ==> r.status.error == NotFound
    ensures r.fs.sealed == if t.PendingDeletion() then fs.sealed - {t.Path()} else fs.sealed
  {
    match t.file
    case Empty => TempOutcome(Ok, t, fs)
    case Handle(name, _, _, _) =>
      var closed := Files.Close(t.file, fs);
      var removed := if name in closed.fs.files then Ok else Failed(NotFound);
      var status := if closed.status.Failed? then closed.status else removed;
      var files := closed.fs.files - {name};
      TempOutcome(status, TempFile(closed.file), FileSystem(files, closed.fs.sealed - {name}))
  }

  /** Move construction: the first component is what the source is left
      with, the second what the destination owns, deletion duty included. */
  function MoveOut(src: TempFile): (r: (TempFile, TempFile))
    ensures r.0.Path() == [] && !r.0.PendingDeletion()
    ensures r.1.Path() == src.Path() && r.1.PendingDeletion() == src.PendingDeletion()
    ensures r.0 == TempFile(Empty) && r.1 == src
  {
    (TempFile(Empty), src)
  }

  /** Move assignment `dest = std::move(src)`: the destination first closes
      what it owned, removing that file and discarding the status, then
      takes over the source's handle and deletion duty. */
  function MoveAssign(dest: TempFile, src: TempFile, fs: FileSystem): (r: TempMoved)
    requires dest.Valid()
    ensures r.source.Path() == [] && !r.source.PendingDeletion()
    ensures r.dest.Path() == src.Path() && r.dest.PendingDeletion() == src.PendingDeletion()
    ensures r.source == TempFile(Empty) && r.dest == src
    ensures forall p :: p != dest.Path() ==> (p in r.fs.files <==> p in fs.files)
    ensures dest.Path() != [] ==> dest.Path() !in r.fs.files
    ensures forall p :: p != dest.Path() && p in fs.files ==> p in r.fs.files && r.fs.files[p] == fs.files[p]
    ensures r.fs.sealed == if dest.PendingDeletion() then fs.sealed - {dest.Path()} else fs.sealed
  {
    var closed := Close(dest, fs);
    TempMoved(src, TempFile(Empty), closed.fs)
  }

  /** std::swap on temporary files: three moves. Every move assignment
      lands on a handle that was just emptied, so the handles, deletion
      duties included, are exchanged and no file is removed. */
  function Swap(a: TempFile, b: TempFile, fs: FileSystem): (r: (TempFile, TempFile, FileSystem))
    ensures r == (b, a, fs)
    ensures r.0.PendingDeletion() == b.PendingDeletion() && r.1.PendingDeletion() == a.PendingDeletion()
  {
    var (a1, tmp) := MoveOut(a);
    var m1 := MoveAssign(a1, b, fs);
    var m2 := MoveAssign(m1.source, tmp, m1.fs);
    (m1.dest, m2.dest, m2.fs)
  }

  /** A temporary file is removed exactly once across a move: closing the
      moved-from handle leaves it in place, closing the new owner removes it,
      and closing that owner again does nothing. */
  lemma RemovedOnceAcrossMove(t: TempFile, fs: FileSystem)
    requires t.PendingDeletion() && t.Path() != [] && t.Path() in fs.files
    ensures var (left, owner) := MoveOut(t);
      var c1 := Close(left, fs);
      var c2 := Close(owner, c1.fs);
      var c3 := Close(c2.temp, c2.fs);
      && c1.status == Ok && c1.fs == fs
      && c2.status == Ok && t.Path() !in c2.fs.files
      && c3.status == Ok && c3.fs == c2.fs
  {
  }
}

=== FILE: temp_name.dfy ===
/** Temporary-name generation: a pattern whose placeholder run of `*`
    characters is replaced by a run of random alphanumeric characters, placed
    inside a directory with JoinPath. The random run is supplied by the
    caller, standing in for one draw of the random generator. */
module TempNames {
  import opened Errors
  import opened Paths

  predicate IsAlphanumeric(c: char) {
    ('a' <= c <= 'z') || ('A' <= c <= 'Z') || ('0' <= c <= '9')
  }

  /** A run the generator can produce: non-empty and alphanumeric. */
  predicate ValidRun(run: string) {
    |run| > 0 && forall i :: 0 <= i < |run| ==> IsAlphanumeric(run[i])
  }

  /** The index of the first `*` in `s`, or -1 when there is none. */
  function FirstStar(s: string): (r: int)
    ensures -1 <= r < |s|
    ensures r >= 0 ==> s[r] == '*'
    ensures forall j :: 0 <= j < |s| && (r < 0 || j < r) ==> s[j] != '*'
  {
    if |s| == 0 then -1
    else if s[0] == '*' then 0
    else
      var k := FirstStar(s[1..]);
      if k < 0 then -1 else k + 1
  }

  /** The end of the run of `*` characters that starts at index `i`. */
  function StarRunEnd(s: string, i: nat): (r: nat)
    requires i <= |s|
    ensures i <= r <= |s|
    ensures forall j :: i <= j < r ==> s[j] == '*'
    ensures r == |s| || s[r] != '*'
    decreases |s| - i
  {
    if i < |s| && s[i] == '*' then StarRunEnd(s, i + 1) else i
  }

  /** Splits a pattern around its first maximal run of `*`: the literal
      prefix before it and the literal suffix after it. */
  function SplitPattern(pattern: string): (r: Option<(string, string)>)
    ensures r.Some? <==> '*' in pattern
    ensures r.Some? ==>
      var (prefix, suffix) := r.value;
      && |prefix| + |suffix| < |pattern|
      && pattern[..|prefix|] == prefix
      && pattern[|pattern| - |suffix|..] == suffix
      && '*' !in prefix
      && (forall j :: |prefix| <= j < |pattern| - |suffix| ==> pattern[j] == '*')
      && (|suffix| == 0 || suffix[0] != '*')
  {
    var k := FirstStar(pattern);
    if k < 0 then None
    else
      var e := StarRunEnd(pattern, k);
      Some((pattern[..k], pattern[e..]))
  }

  /** TempName(directory, pattern, random): the pattern with its placeholder
      run replaced by `run`, joined onto `dir`. A pattern without a
      placeholder is an invalid argument. */
  function TempName(dir: string, pattern: string, run: string): (r: Result<string>)
    requires ValidRun(run)
    ensures r.Success? <==> '*' in pattern
    ensures r.Failure? ==> r.error == InvalidArgument
  {
    match SplitPattern(pattern)
    case None => Failure(InvalidArgument)
    case Some((prefix, suffix)) => Success(JoinPath([dir, prefix + run + suffix]))
  }

  /** The file-name part TempName places in the directory. */
  function ExpandedName(pattern: string, run: string): string
    requires '*' in pattern
  {
    var (prefix, suffix) := SplitPattern(pattern).value;
    prefix + run + suffix
  }

  /** Removing a leading slash only touches a non-empty first part. */
  lemma RemoveLeadingSlashPrepend(u: string, v: string)
    requires u != []
    ensures RemoveLeadingSlash(u + v) == RemoveLeadingSlash(u) + v
  {
    assert (u + v)[0] == u[0];
    if StartsWithSlash(u) {
      assert (u + v)[1..] == u[1..] + v;
    }
  }

  /** The run never starts with a slash, so only the prefix can lose one. */
  lemma RemoveLeadingSlashExpanded(prefix: string, run: string, suffix: string)
    requires ValidRun(run)
    ensures RemoveLeadingSlash(prefix + run + suffix) == RemoveLeadingSlash(prefix) + run + suffix
  {
    if |prefix| == 0 {
      assert prefix + run + suffix == run + suffix;
      assert (run + suffix)[0] == run[0];
      assert IsAlphanumeric(run[0]);
    } else {
      assert prefix + run + suffix == prefix + (run + suffix);
      RemoveLeadingSlashPrepend(prefix, run + suffix);
    }
  }

  lemma TempNameIsJoin(dir: string, pattern: string, run: string)
    requires ValidRun(run) && '*' in pattern
    ensures var (prefix, suffix) := SplitPattern(pattern).value;
            TempName(dir, pattern, run)
              == Success(RemoveSlash(dir) + "/" + RemoveLeadingSlash(prefix) + run + suffix)
  {
    var (prefix, suffix) := SplitPattern(pattern).value;
    JoinPathTwo(dir, prefix + run + suffix);
    RemoveLeadingSlashExpanded(prefix, run, suffix);
    var head := RemoveSlash(dir) + "/";
    var tail := RemoveLeadingSlash(prefix);
    assert head + (tail + run + suffix) == head + tail + run + suffix;
  }

  /** A generated name starts with the directory joined to the literal
      prefix, and ends with the literal suffix. */
  lemma TempNameShape(dir: string, pattern: string, run: string)
    requires ValidRun(run) && '*' in pattern && !StartsWithSlash(pattern)
    ensures var (prefix, suffix) := SplitPattern(pattern).value;
            var name := TempName(dir, pattern, run).value;
            var start := JoinPath([dir, prefix]);
            && |start| <= |name| && name[..|start|] == start
            && |suffix| <= |name| && name[|name| - |suffix|..] == suffix
  {
    var (prefix, suffix) := SplitPattern(pattern).value;
    TempNameIsJoin(dir, pattern, run);
    JoinPathTwo(dir, prefix);
    if |prefix| > 0 {
      assert prefix[0] == pattern[0];
    }
    assert RemoveLeadingSlash(prefix) == prefix;
  }

  /** Different draws of the generator give different names. */
  lemma TempNameDistinct(dir: string, pattern: string, run1: string, run2: string)
    requires ValidRun(run1) && ValidRun(run2) && '*' in pattern
    requires run1 != run2
    ensures TempName(dir, pattern, run1).value != TempName(dir, pattern, run2).value
  {
    var (prefix, suffix) := SplitPattern(pattern).value;
    TempNameIsJoin(dir, pattern, run1);
    TempNameIsJoin(dir, pattern, run2);
    MiddleDistinct(RemoveSlash(dir) + "/" + RemoveLeadingSlash(prefix), run1, run2, suffix);
  }

  /** A pattern without slashes yields a name that sits directly in the
      directory with one trailing slash removed, and whose file name is the
      expanded pattern. */
  lemma TempNameInDirectory(dir: string, pattern: string, run: string)
    requires ValidRun(run) && '*' in pattern && '/' !in pattern
    ensures Parent(TempName(dir, pattern, run).value) == RemoveSlash(dir)
    ensures FileName(TempName(dir, pattern, run).value) == ExpandedName(pattern, run)
  {
    TempNameIsJoin(dir, pattern, run);
    var (prefix, suffix) := SplitPattern(pattern).value;
    var base := prefix + run + suffix;
    if |prefix| > 0 {
      assert prefix[0] == pattern[0];
    }
    assert RemoveSlash(dir) + "/" + RemoveLeadingSlash(prefix) + run + suffix
        == RemoveSlash(dir) + "/" + base;
    SplitJoinedName(RemoveSlash(dir), base);
  }

  /** "temp-*.json" splits into "temp-" and ".json". */
  lemma TempPattern()
    ensures SplitPattern("temp-*.json") == Some(("temp-", ".json"))
  {
    var pattern := "temp-*.json";
    assert pattern[5] == '*';
    assert FirstStar(pattern) == 5 by {
      assert pattern[0] != '*' && pattern[1] != '*' && pattern[2] != '*';
      assert pattern[3] != '*' && pattern[4] != '*';
    }
    assert pattern[6] == '.';
    assert StarRunEnd(pattern, 5) == 6;
    assert pattern[..5] == "temp-";
    assert pattern[6..] == ".json";
  }

  /** Different middles with the same surroundings give different strings. */
  lemma MiddleDistinct(head: string, x: string, y: string, tail: string)
    requires x != y
    ensures head + x + tail != head + y + tail
  {
    if |x| == |y| {
      assert (head + x + tail)[|head|..|head| + |x|] == x;
      assert (head + y + tail)[|head|..|head| + |y|] == y;
    }
  }

  /** A name in "/" from "temp-*.json" is "/temp-", the run, ".json". */
  lemma TempNameInRoot(run: string)
    requires ValidRun(run)
    ensures TempName("/", "temp-*.json", run) == Success("/temp-" + run + ".json")
  {
    TempPattern();
    TempNameIsJoin("/", "temp-*.json", run);
    assert RemoveSlash("/") + "/" + RemoveLeadingSlash("temp-") == "/temp-" by {
      assert RemoveSlash("/") == "";
      assert RemoveLeadingSlash("temp-") == "temp-";
    }
  }

  lemma RootNameAffixes(run: string)
    ensures var name := "/temp-" + run + ".json";
            && |name| >= 6 && name[..6] == "/temp-"
            && |name| >= 5 && name[|name| - 5..] == ".json"
  {
  }

  /** TempName, test Create: names in "/" from "temp-*.json" begin with
      "/temp-", end with ".json", and two draws give two names. */
  lemma TempNameCreate(run1: string, run2: string)
    requires ValidRun(run1) && ValidRun(run2) && run1 != run2
    ensures var a := TempName("/", "temp-*.json", run1);
            var b := TempName("/", "temp-*.json", run2);
            && a.Success? && b.Success?
            && |a.value| >= 6 && a.value[..6] == "/temp-"
            && |a.value| >= 5 && a.value[|a.value| - 5..] == ".json"
            && |b.value| >= 6 && b.value[..6] == "/temp-"
            && |b.value| >= 5 && b.value[|b.value| - 5..] == ".json"
            && a.value != b.value
  {
    TempNameInRoot(run1);
    TempNameInRoot(run2);
    RootNameAffixes(run1);
    RootNameAffixes(run2);
    MiddleDistinct("/temp-", run1, run2, ".json");
  }
}
